=== FILE: README.md ===
# Location registry and location selector of the weather page

The weather section of the site is driven by one static registry. It holds an
ordered list of states (countries, in practice) and an ordered list of cities.
Each city carries its own slug, an embedded copy of its state's record and a
coordinate pair. The location selector on the weather page is a pair of
dependent drop-downs:

- The state drop-down offers every listed state.
- The city drop-down offers the cities of the current state, in declaration order.
- Changing the state navigates to `/weather/{state}/{first city of that state}`.
  When the state has no city, nothing happens.
- Changing the city navigates to `/weather/{current state}/{city}`.

The project has four modules:

- `Wrappers` (`wrappers.dfy`): the `Option` type.
- `LocationData` (`locations.dfy`): the registry as two constant sequences,
  `States` (12 entries) and `Cities` (35 entries), together with the
  invariants a registry may satisfy and proofs of which ones the shipped
  registry satisfies.
- `WeatherPath` (`weather_path.dfy`): the path template, and the route match
  `/weather/[state]/[city]` that splits a path back into its two segments.
  The match is the partner against which path building is proved.
- `LocationSelector` (`location_selector.dfy`): the selector's rules as pure
  functions. A `router.push(path)` becomes a returned path; "nothing pushed"
  becomes `None`.

The shipped registry does not satisfy one invariant the weather page needs for every city to be reachable:
"every city's state is listed". Zurich's state, "ch" (Switzerland), is not in
the state list, and Zurich is the only such city (`LocationsOnlyZurichStateUnlisted`).
The weather page mounts the selector only for a listed state. When the state
or the (state, city) pair is not found, it renders "Location not found" instead
(app/weather/[state]/[city]/page.tsx:10-24). A direct visit to
`/weather/ch/zurich` therefore renders "Location not found". From any listed
state, the selector never leads to Zurich:

- No city option of an offered state is Zurich (`LocationsZurichNotOffered`).
- A state change to any state other than "ch" never picks Zurich (`FirstCityNeverZurich`).

Two further facts about the code:

- City slugs are unique across the whole registry (`LocationsCitySlugsDistinct`),
  so every (state, city) pair is unique.
- The (state, city) lookups are inline `find` calls in
  app/weather/[state]/[city]/page.tsx:10-15, outside this model. The registry
  facts they rely on are proved here: a unique (state, city) pair and the
  Jerusalem example (`LocationsJerusalem`).

## Model

| member | source | states |
|---|---|---|
| LocationData.LocationsStateSlugsDistinct | data/locations.ts:2-15 | there are 12 states and their slugs are pairwise distinct |
| LocationData.LocationsCitySlugsDistinct | data/locations.ts:17-288 | there are 35 cities and their slugs are pairwise distinct across the whole registry, so every (state slug, city slug) pair is unique |
| LocationData.LocationsEmbeddedStatesAgree | data/locations.ts:3-285 | the state list (lines 3-14) against the embedded records (lines 23-285): a city whose embedded state slug is listed embeds exactly the listed record (id, name and slug) |
| LocationData.LocationsSlugsWellFormed | data/locations.ts:3-286 | every state slug, city slug and embedded state slug is non-empty and made only of `a`–`z` and `-`, so none contains a `/` |
| LocationData.LocationsEveryStateHasCity | data/locations.ts:17-288 | each of the 12 listed states has at least one city |
| LocationData.LocationsOnlyZurichStateUnlisted | data/locations.ts:244-251 | city 30 is Zurich with state "ch"; "ch" is not listed, so "every city's state is listed" is false; every other city's state is listed |
| LocationData.LocationsGroupedByState | data/locations.ts:17-288 | the cities of each state form one contiguous block of the declaration order |
| LocationData.BlocksGiveGrouping | data/locations.ts:17-288 | proof step of `LocationsGroupedByState`: any list whose cities lie in non-decreasing blocks, each block belonging to a different state, is grouped by state |
| LocationData.BlocksAscend | data/locations.ts:17-288 | proof step of `LocationsGroupedByState`: block numbers that never decrease between neighbours never decrease between any two positions |
| LocationData.LocationsJerusalem | data/locations.ts:19-25 | ("il", "jerusalem") holds for exactly one city, the first, and its coordinates are (31.7683, 35.2137) |
| WeatherPath.FirstSlash | components/LocationSelector.tsx:28 | the segment split of the route `/weather/[state]/[city]`, whose params reach app/weather/[state]/[city]/page.tsx:5-9: returns `None` exactly when there is no '/', and otherwise the position of the first '/' |
| WeatherPath.Parse | components/LocationSelector.tsx:28 | the route `/weather/[state]/[city]`, whose two segments become the params of app/weather/[state]/[city]/page.tsx:5-9, applied to the paths the selector pushes: a matched path has two non-empty, slash-free segments, and building from them gives the path back |
| WeatherPath.Build | components/LocationSelector.tsx:28 | the template `"/weather/" + state + "/" + city`, used at lines 28 and 43: the path starts with `/weather/`, has a '/' right after the state, and is as long as its three parts plus one separator |
| WeatherPath.ParseBuild | components/LocationSelector.tsx:28 | a path built from two segments matches back to exactly those segments |
| WeatherPath.BuildInjective | components/LocationSelector.tsx:43 | two segment pairs that build the same path are equal |
| LocationSelector.CitiesInState | components/LocationSelector.tsx:14-16 | the result holds exactly the cities of the list whose state slug is the current state, and is no longer than the list |
| LocationSelector.CitiesInStateAppend | components/LocationSelector.tsx:14-16 | filtering a concatenation gives the two filtered parts in order |
| LocationSelector.CitiesInStateStep | components/LocationSelector.tsx:14-16 | extending the list by one city extends the result by that city exactly when the city is in the state, so declaration order is kept |
| LocationSelector.CitiesInStateKeepsAll | components/LocationSelector.tsx:14-16 | a list whose cities are all in the state is returned whole |
| LocationSelector.CitiesInStateOfLeadingBlock | components/LocationSelector.tsx:14-16 | when the state's cities are exactly the first k, the result is exactly those k in order |
| LocationSelector.CitiesInStateKeepsDistinct | components/LocationSelector.tsx:14-16 | distinct city slugs stay distinct after filtering |
| LocationSelector.LocationsCitiesInIsrael | components/LocationSelector.tsx:14-16 | in the shipped registry, the cities offered for "il" are exactly the first eight declared, in order |
| LocationSelector.FindInState | components/LocationSelector.tsx:24-26 | a found city is in the list and in the state; nothing is found exactly when no city of the list is in the state |
| LocationSelector.FindIsFirstOfFilter | components/LocationSelector.tsx:24-26 | the city found is the head of the filter for the same state, and nothing is found exactly when that filter is empty |
| LocationSelector.FindFirstMatch | components/LocationSelector.tsx:24-26 | when city i is the first of the state in declaration order, the city found is city i |
| LocationSelector.FirstCity | components/LocationSelector.tsx:24-26 | a slug is returned exactly when the state has a city, and it is the slug of the first city offered for that state |
| LocationSelector.FirstCityAt | components/LocationSelector.tsx:24-29 | when city i is the first of the state, the first city is its slug, and when that slug is non-empty a state change pushes `/weather/{state}/{slug}` |
| LocationSelector.OnStateChange | components/LocationSelector.tsx:22-29 | a path is pushed exactly when the state has a city and the first such city's slug is non-empty, and the path is `/weather/{new state}/{first city's slug}` |
| LocationSelector.NoCityInState | components/LocationSelector.tsx:24-27 | for a state no city belongs to, nothing is offered and nothing is found |
| LocationSelector.LocationsNoNavigationWithoutCity | components/LocationSelector.tsx:27 | in the shipped registry, changing to a state with no city ("nl") pushes nothing |
| LocationSelector.StateChangeNavigates | components/LocationSelector.tsx:22-29 | for a well-formed registry and a state with a city, a path is pushed, and it matches back to the state and to its first registry city |
| LocationSelector.LocationsFirstCityIsrael | components/LocationSelector.tsx:24-26 | in the shipped registry, the first city of "il" is "jerusalem" |
| LocationSelector.LocationsFirstCityUs | components/LocationSelector.tsx:24-26 | in the shipped registry, the first city of "us" is "new-york" |
| LocationSelector.LocationsFirstCityUk | components/LocationSelector.tsx:24-26 | in the shipped registry, the first city of "uk" is "london" |
| LocationSelector.LocationsFirstCityFr | components/LocationSelector.tsx:24-26 | in the shipped registry, the first city of "fr" is "paris" |
| LocationSelector.StateOptionsNavigate | components/LocationSelector.tsx:33-37 | when every slug of the registry is well formed and every listed state has a city, choosing any state option pushes a path |
| LocationSelector.LocationsStateOptionsNavigate | components/LocationSelector.tsx:33-37 | in the shipped registry, every state the drop-down offers leads to a navigation |
| LocationSelector.OnCityChange | components/LocationSelector.tsx:42-44 | the pushed path is `/weather/{current state}/{chosen city}` for every input; for segment-shaped arguments it matches back to the unchanged current state and the chosen city |
| LocationSelector.CityOptionNavigates | components/LocationSelector.tsx:42-51 | choosing the k-th city option pushes a path that matches back to the current state and to the k-th city of that state, and no other registry city has that state and slug |
| LocationSelector.StateOptions | components/LocationSelector.tsx:33-37 | one option per listed state, in state-list order: option j has value = the j-th state's slug and text = its name, and key = value, so every option value is a listed state |
| LocationSelector.CityOptions | components/LocationSelector.tsx:47-51 | one option per city of `CitiesInState` for the current state, in the same order: option k is (slug, slug, name) of the k-th such city, so every city of the state is offered, in declaration order, and there are no more options than cities |
| LocationSelector.OptionKeysDistinct | components/LocationSelector.tsx:33-37 | when the state slugs are pairwise distinct and the city slugs are pairwise distinct, the React keys of the state options and of the city options are pairwise distinct |
| LocationSelector.LocationsZurichNotOffered | components/LocationSelector.tsx:47-51 | in the shipped registry, no state the drop-down offers lists Zurich among its city options |
| LocationSelector.FirstCityNeverZurich | components/LocationSelector.tsx:22-29 | in the shipped registry, for any state other than "ch", the first city is not Zurich, and any path a state change pushes is built from a slug other than "zurich" |
| LocationSelector.ZurichOnlyInCh | components/LocationSelector.tsx:47-51 | outside state "ch", no city option is Zurich |

## Left out

- `router.push`, `useRouter` and the component's rendering are not modelled. A push is the returned path, and "no push" is `None`.
- The `value` attributes that mark the current selection in each drop-down are display only, so they are not modelled.
- Route matching is modelled as a plain split at the first '/' after `/weather/`. Percent-decoding and the framework's other routing rules are not modelled.
- LocationSelector.OnCityChange: the round trip through the route needs non-empty, slash-free state and city values. For other values the pushed path is still stated, but the route would not match it back.
- The weather page's own lookups (app/weather/[state]/[city]/page.tsx:10-17) and its forecast sampling of every eighth entry (page.tsx:60-61) are not part of this model. Only the registry facts those lookups rely on are proved.
- The weather provider calls in data/weather.ts are HTTP requests and are not modelled.
- Coordinates are carried as `real` values and never computed with.
- Strings are sequences of characters. UTF-16 code units are not modelled, and every slug in the registry is ASCII.

=== FILE: location_selector.dfy ===
/**
 * The selection rules of the weather page's location selector: the cities
 * offered for the current state, the navigation taken when the state
 * changes (to that state's first city) and when the city changes. Pushing a
 * path to the router is modelled by returning the path.
 */
module LocationSelector {
  import opened Wrappers
  import opened LocationData
  import WeatherPath

  /** One `<option>` of a `<select>`: its React key, its value and its displayed text. */
  datatype SelectOption = SelectOption(key: string, value: string, text: string)

  // ---------------------------------------------------------------------
  // The rules
  // ---------------------------------------------------------------------

  /** The cities of `currentState`, filtered out of the city list. */
  function CitiesInState(cities: seq<City>, currentState: string): (r: seq<City>)
    ensures |r| <= |cities|
    ensures forall c :: c in r <==> c in cities && c.state.slug == currentState
  {
    if cities == [] then []
    else
      assert cities == [cities[0]] + cities[1..];
      if cities[0].state.slug == currentState then [cities[0]] + CitiesInState(cities[1..], currentState)
      else CitiesInState(cities[1..], currentState)
  }

  /** The first city of the list whose state is `newState`, as `Array.prototype.find` gives it. */
  function FindInState(cities: seq<City>, newState: string): (r: Option<City>)
    ensures r.Some? ==> r.value in cities && r.value.state.slug == newState
    ensures r.None? <==> forall c :: c in cities ==> c.state.slug != newState
  {
    if cities == [] then None
    else if cities[0].state.slug == newState then Some(cities[0])
    else
      assert cities == [cities[0]] + cities[1..];
      FindInState(cities[1..], newState)
  }

  /** `find(...)?.slug`: the slug of the first city of `newState`. */
  function FirstCity(reg: Registry, newState: string): (r: Option<string>)
    ensures var offered := CitiesInState(reg.cities, newState);
      && (r.Some? <==> offered != [])
      && (r.Some? ==> r.value == offered[0].slug)
  {
    FindIsFirstOfFilter(reg.cities, newState);
    match FindInState(reg.cities, newState)
    case None => None
    case Some(city) => Some(city.slug)
  }

  /**
   * The state selector's change handler: the path pushed, or `None` when
   * nothing is pushed. An empty slug counts as "no city", as the truthiness
   * test `if (firstCity)` treats it.
   */
  function OnStateChange(reg: Registry, newState: string): (r: Option<string>)
    ensures var offered := CitiesInState(reg.cities, newState);
      && (r.Some? <==> offered != [] && offered[0].slug != "")
      && (r.Some? ==> r.value == WeatherPath.Build(newState, offered[0].slug))
  {
    match FirstCity(reg, newState)
    case Some(firstCity) =>
      if firstCity != "" then Some(WeatherPath.Build(newState, firstCity)) else None
    case None => None
  }

  /** The city selector's change handler: the path pushed, which keeps the current state. */
  function OnCityChange(currentState: string, chosenCity: string): (r: string)
    ensures r == WeatherPath.Build(currentState, chosenCity)
    ensures WeatherPath.IsSegment(currentState) && WeatherPath.IsSegment(chosenCity) ==>
      WeatherPath.Parse(r) == Some(WeatherPath.Route(currentState, chosenCity))
  {
    if WeatherPath.IsSegment(currentState) && WeatherPath.IsSegment(chosenCity) then
      WeatherPath.ParseBuild(currentState, chosenCity);
      WeatherPath.Build(currentState, chosenCity)
    else
      WeatherPath.Build(currentState, chosenCity)
  }

  /** The options of the state selector: one per listed state, keyed and valued by slug. */
  function StateOptions(reg: Registry): (r: seq<SelectOption>)
    ensures |r| == |reg.states|
    ensures forall j :: 0 <= j < |r| ==> r[j].value == reg.states[j].slug && r[j].text == reg.states[j].name
    ensures forall j :: 0 <= j < |r| ==> r[j].key == r[j].value && StateListed(reg, r[j].value)
  {
    seq(|reg.states|, j requires 0 <= j < |reg.states| =>
      SelectOption(reg.states[j].slug, reg.states[j].slug, reg.states[j].name))
  }

  /** The options of the city selector: one per city of the current state, keyed and valued by slug. */
  function CityOptions(reg: Registry, currentState: string): (r: seq<SelectOption>)
    ensures var offered := CitiesInState(reg.cities, currentState);
      && |r| == |offered|
      && forall k :: 0 <= k < |r| ==> r[k] == SelectOption(offered[k].slug, offered[k].slug, offered[k].name)
    ensures |r| <= |reg.cities|
    ensures forall k :: 0 <= k < |r| ==>
      exists c :: c in reg.cities && c.state.slug == currentState && r[k] == SelectOption(c.slug, c.slug, c.name)
  {
    var offered := CitiesInState(reg.cities, currentState);
    assert forall i :: 0 <= i < |offered| ==> offered[i] in offered;
    seq(|offered|, i requires 0 <= i < |offered| =>
      SelectOption(offered[i].slug, offered[i].slug, offered[i].name))
  }

  // ---------------------------------------------------------------------
  // The filter keeps declaration order
  // ---------------------------------------------------------------------

  /** Filtering a concatenation filters each part, in order. */
  lemma {:induction false} CitiesInStateAppend(a: seq<City>, b: seq<City>, currentState: string)
    ensures CitiesInState(a + b, currentState) == CitiesInState(a, currentState) + CitiesInState(b, currentState)
  {
    if a == [] {
      assert a + b == b;
    } else {
      assert (a + b)[0] == a[0];
      assert (a + b)[1..] == a[1..] + b;
      CitiesInStateAppend(a[1..], b, currentState);
    }
  }

  /** Each further city of the list is appended to the filter's result exactly when it is in the state. */
  lemma CitiesInStateStep(cities: seq<City>, currentState: string, i: int)
    requires 0 <= i < |cities|
    ensures CitiesInState(cities[..i + 1], currentState) ==
      CitiesInState(cities[..i], currentState) + (if cities[i].state.slug == currentState then [cities[i]] else [])
  {
    assert cities[..i + 1] == cities[..i] + [cities[i]];
    CitiesInStateAppend(cities[..i], [cities[i]], currentState);
    assert [cities[i]][1..] == [];
  }

  /** A list all of whose cities are in the state is kept whole. */
  lemma {:induction false} CitiesInStateKeepsAll(cities: seq<City>, currentState: string)
    requires forall i :: 0 <= i < |cities| ==> cities[i].state.slug == currentState
    ensures CitiesInState(cities, currentState) == cities
  {
    if cities != [] {
      CitiesInStateKeepsAll(cities[1..], currentState);
      assert cities == [cities[0]] + cities[1..];
    }
  }

  /** When a state's cities are exactly the first k of the list, the filter returns those k. */
  lemma CitiesInStateOfLeadingBlock(cities: seq<City>, currentState: string, k: int)
    requires 0 <= k <= |cities|
    requires forall i :: 0 <= i < k ==> cities[i].state.slug == currentState
    requires forall i :: k <= i < |cities| ==> cities[i].state.slug != currentState
    ensures CitiesInState(cities, currentState) == cities[..k]
  {
    assert cities == cities[..k] + cities[k..];
    CitiesInStateAppend(cities[..k], cities[k..], currentState);
    CitiesInStateKeepsAll(cities[..k], currentState);
    NoCityInState(cities[k..], currentState);
  }

  /** Distinct city slugs stay distinct after filtering, so the city options' keys are unique. */
  lemma {:induction false} CitiesInStateKeepsDistinct(cities: seq<City>, currentState: string)
    requires DistinctCitySlugs(cities)
    ensures DistinctCitySlugs(CitiesInState(cities, currentState))
  {
    if cities != [] {
      var tail := cities[1..];
      CitiesInStateKeepsDistinct(tail, currentState);
      if cities[0].state.slug == currentState {
        var r := CitiesInState(cities, currentState);
        var rest := CitiesInState(tail, currentState);
        assert r == [cities[0]] + rest;
        forall j | 0 < j < |r| ensures r[0].slug != r[j].slug {
          assert r[j] in rest;
          var t :| 0 <= t < |tail| && tail[t] == r[j];
          assert cities[t + 1] == r[j];
        }
      }
    }
  }

  // ---------------------------------------------------------------------
  // The state change goes to the state's first city
  // ---------------------------------------------------------------------

  /** `find` returns the head of the filter for the same state, or nothing when the filter is empty. */
  lemma {:induction false} FindIsFirstOfFilter(cities: seq<City>, newState: string)
    ensures var offered := CitiesInState(cities, newState);
      FindInState(cities, newState) == if offered == [] then None else Some(offered[0])
  {
    if cities != [] && cities[0].state.slug != newState {
      FindIsFirstOfFilter(cities[1..], newState);
    }
  }

  /** The city `find` returns is the first one, in declaration order, of the state. */
  lemma {:induction false} FindFirstMatch(cities: seq<City>, newState: string, i: int)
    requires 0 <= i < |cities| && cities[i].state.slug == newState
    requires forall j :: 0 <= j < i ==> cities[j].state.slug != newState
    ensures FindInState(cities, newState) == Some(cities[i])
  {
    if i > 0 {
      FindFirstMatch(cities[1..], newState, i - 1);
    }
  }

  /** The state change picks the first city of the state in declaration order. */
  lemma FirstCityAt(reg: Registry, newState: string, i: int)
    requires 0 <= i < |reg.cities| && reg.cities[i].state.slug == newState
    requires forall j :: 0 <= j < i ==> reg.cities[j].state.slug != newState
    ensures FirstCity(reg, newState) == Some(reg.cities[i].slug)
    ensures reg.cities[i].slug != "" ==> OnStateChange(reg, newState) == Some(WeatherPath.Build(newState, reg.cities[i].slug))
  {
    FindFirstMatch(reg.cities, newState, i);
  }

  /** A state with at least one well-formed city yields a navigation, to a path the route matches back. */
  lemma StateChangeNavigates(reg: Registry, newState: string)
    requires SlugsWellFormed(reg) && StateHasCity(reg, newState)
    ensures var offered := CitiesInState(reg.cities, newState);
      && offered != []
      && offered[0] in reg.cities && offered[0].state.slug == newState
      && OnStateChange(reg, newState).Some?
      && WeatherPath.Parse(OnStateChange(reg, newState).value) == Some(WeatherPath.Route(newState, offered[0].slug))
  {
    var offered := CitiesInState(reg.cities, newState);
    var i :| 0 <= i < |reg.cities| && reg.cities[i].state.slug == newState;
    assert reg.cities[i] in offered;
    assert offered[0] in offered;
    var t :| 0 <= t < |reg.cities| && reg.cities[t] == offered[0];
    SlugIsSegment(newState);
    SlugIsSegment(offered[0].slug);
    WeatherPath.ParseBuild(newState, offered[0].slug);
  }

  /** Every state offered by the selector navigates somewhere, when every listed state has a city. */
  lemma StateOptionsNavigate(reg: Registry)
    requires SlugsWellFormed(reg) && EveryStateHasCity(reg)
    ensures forall j :: 0 <= j < |StateOptions(reg)| ==> OnStateChange(reg, StateOptions(reg)[j].value).Some?
  {
    forall j | 0 <= j < |StateOptions(reg)| ensures OnStateChange(reg, StateOptions(reg)[j].value).Some? {
      StateChangeNavigates(reg, reg.states[j].slug);
    }
  }

  // ---------------------------------------------------------------------
  // The city change keeps the state and names one city
  // ---------------------------------------------------------------------

  /**
   * Choosing the k-th city option pushes a path that the route matches to
   * the current state and the k-th city of that state; with distinct city
   * slugs, no other city of the registry has that state and slug.
   */
  lemma CityOptionNavigates(reg: Registry, currentState: string, k: int)
    requires SlugsWellFormed(reg) && DistinctCitySlugs(reg.cities)
    requires 0 <= k < |CityOptions(reg, currentState)|
    ensures var city := CitiesInState(reg.cities, currentState)[k];
      && city in reg.cities && city.state.slug == currentState
      && WeatherPath.Parse(OnCityChange(currentState, CityOptions(reg, currentState)[k].value))
         == Some(WeatherPath.Route(currentState, city.slug))
      && forall i :: 0 <= i < |reg.cities| && reg.cities[i].state.slug == currentState && reg.cities[i].slug == city.slug ==>
           reg.cities[i] == city
  {
    var city := CitiesInState(reg.cities, currentState)[k];
    assert city in CitiesInState(reg.cities, currentState);
    var t :| 0 <= t < |reg.cities| && reg.cities[t] == city;
    SlugIsSegment(currentState);
    SlugIsSegment(city.slug);
    forall i | 0 <= i < |reg.cities| && reg.cities[i].state.slug == currentState && reg.cities[i].slug == city.slug
      ensures reg.cities[i] == city
    {
    }
  }

  /** React keys of both option lists are unique when the registry's slugs are. */
  lemma OptionKeysDistinct(reg: Registry, currentState: string)
    requires StateSlugsDistinct(reg) && DistinctCitySlugs(reg.cities)
    ensures var options := StateOptions(reg);
      forall i, j :: 0 <= i < j < |options| ==> options[i].key != options[j].key
    ensures var options := CityOptions(reg, currentState);
      forall i, j :: 0 <= i < j < |options| ==> options[i].key != options[j].key
  {
    CitiesInStateKeepsDistinct(reg.cities, currentState);
  }

  /** A state no city of the list belongs to is offered no city, and `find` returns nothing for it. */
  lemma NoCityInState(cities: seq<City>, st: string)
    requires forall i :: 0 <= i < |cities| ==> cities[i].state.slug != st
    ensures CitiesInState(cities, st) == []
    ensures FindInState(cities, st) == None
  {
  }

  lemma SlugIsSegment(s: string)
    requires IsSlug(s)
    ensures WeatherPath.IsSegment(s)
  {
  }

  // ---------------------------------------------------------------------
  // The shipped registry
  // ---------------------------------------------------------------------

  /** Every state in the dropdown leads to a navigation. */
  lemma LocationsStateOptionsNavigate()
    ensures forall j :: 0 <= j < |StateOptions(Locations)| ==> OnStateChange(Locations, StateOptions(Locations)[j].value).Some?
  {
    LocationsSlugsWellFormed();
    LocationsEveryStateHasCity();
    StateOptionsNavigate(Locations);
  }

  /** The first city declared for Israel, the United States, the United Kingdom and France. */
  lemma LocationsFirstCityIsrael()
    ensures FirstCity(Locations, "il") == Some("jerusalem")
  {
    FirstCityAt(Locations, "il", 0);
  }

  lemma LocationsFirstCityUs()
    ensures FirstCity(Locations, "us") == Some("new-york")
  {
    FirstCityAt(Locations, "us", 8);
  }

  lemma LocationsFirstCityUk()
    ensures FirstCity(Locations, "uk") == Some("london")
  {
    FirstCityAt(Locations, "uk", 15);
  }

  lemma LocationsFirstCityFr()
    ensures FirstCity(Locations, "fr") == Some("paris")
  {
    FirstCityAt(Locations, "fr", 18);
  }

  /**
   * A state without cities makes a state change push nothing. Every listed
   * state has a city (`LocationsEveryStateHasCity`), so only a slug outside
   * the state list, such as "nl", can take this path.
   */
  lemma LocationsNoNavigationWithoutCity()
    ensures OnStateChange(Locations, "nl") == None
  {
    NoCityInState(Cities, "nl");
  }

  /** The Israeli cities are offered in declaration order, and nothing else is. */
  lemma LocationsCitiesInIsrael()
    ensures CitiesInState(Locations.cities, "il") == Cities[..8]
  {
    assert forall i :: 0 <= i < 8 ==> Cities[i].state.slug == "il";
    assert forall i :: 8 <= i < |Cities| ==> Cities[i].state.slug != "il";
    CitiesInStateOfLeadingBlock(Cities, "il", 8);
  }

  /** Zurich, whose state is not listed, is never among the city options of a state the selector offers. */
  lemma LocationsZurichNotOffered()
    ensures forall j, k :: 0 <= j < |StateOptions(Locations)| && 0 <= k < |CityOptions(Locations, StateOptions(Locations)[j].value)| ==>
      CityOptions(Locations, StateOptions(Locations)[j].value)[k].value != "zurich"
  {
    var options := StateOptions(Locations);
    forall j | 0 <= j < |options|
      ensures forall k :: 0 <= k < |CityOptions(Locations, options[j].value)| ==> CityOptions(Locations, options[j].value)[k].value != "zurich"
    {
      assert options[j].value == States[j].slug != "ch";
      ZurichOnlyInCh(options[j].value);
    }
  }

  /**
   * Outside the unlisted state "ch", a state change never picks Zurich: the
   * first city is not Zurich, and any pushed path is built from a slug other
   * than "zurich".
   */
  lemma FirstCityNeverZurich(st: string)
    requires st != "ch"
    ensures FirstCity(Locations, st) != Some("zurich")
    ensures var offered := CitiesInState(Cities, st);
      OnStateChange(Locations, st).Some? ==>
        OnStateChange(Locations, st).value == WeatherPath.Build(st, offered[0].slug) && offered[0].slug != "zurich"
  {
    var offered := CitiesInState(Cities, st);
    ZurichCityOnlyInCh(st);
    if offered != [] {
      assert offered[0] in offered;
    }
  }

  /** Outside the unlisted state "ch", no city option is Zurich. */
  lemma ZurichOnlyInCh(st: string)
    requires st != "ch"
    ensures forall k :: 0 <= k < |CityOptions(Locations, st)| ==> CityOptions(Locations, st)[k].value != "zurich"
  {
    var offered := CitiesInState(Cities, st);
    ZurichCityOnlyInCh(st);
    forall k | 0 <= k < |offered| ensures offered[k].slug != "zurich" {
      assert offered[k] in offered;
    }
  }

  lemma ZurichCityOnlyInCh(st: string)
    requires st != "ch"
    ensures forall c :: c in CitiesInState(Cities, st) ==> c.slug != "zurich"
  {
    assert forall i :: 0 <= i < |Cities| && Cities[i].state.slug != "ch" ==> Cities[i].slug != "zurich";
    forall c | c in CitiesInState(Cities, st) ensures c.slug != "zurich" {
      var t :| 0 <= t < |Cities| && Cities[t] == c;
    }
  }
}

=== FILE: locations.dfy ===
/**
 * The static location registry of the weather feature: an ordered list of
 * states (countries, in practice) and an ordered list of cities, each city
 * carrying its own slug, an embedded copy of its state record and a
 * coordinate pair. The registry is one immutable constant, `Locations`.
 */
module LocationData {

  /** A state of the registry: its GeoNames id, display name and lookup slug. */
  datatype State = State(geonameid: int, name: string, slug: string)

  /** Latitude and longitude; carried as data, never computed with. */
  datatype Coordinates = Coordinates(lat: real, lon: real)

  /** A city of the registry, with an embedded copy of its state's record. */
  datatype City = City(geonameid: int, name: string, slug: string, state: State, coordinates: Coordinates)

  /** The shape of the exported `locations` object. */
  datatype Registry = Registry(states: seq<State>, cities: seq<City>)

  const States: seq<State> := [
    State(294640, "Israel", "il"),
    State(6252001, "United States", "us"),
    State(2635167, "United Kingdom", "uk"),
    State(6251999, "Canada", "ca"),
    State(2077456, "Australia", "au"),
    State(953987, "South Africa", "za"),
    State(3017382, "France", "fr"),
    State(2921044, "Germany", "de"),
    State(3865483, "Argentina", "ar"),
    State(3057568, "Hungary", "hu"),
    State(2510769, "Spain", "es"),
    State(3175395, "Italy", "it")
  ]

  const Cities: seq<City> := [
    City(281184, "Jerusalem", "jerusalem", State(294640, "Israel", "il"), Coordinates(31.7683, 35.2137)),
    City(293397, "Tel Aviv", "tel-aviv", State(294640, "Israel", "il"), Coordinates(32.0853, 34.7818)),
    City(294801, "Haifa", "haifa", State(294640, "Israel", "il"), Coordinates(32.794, 34.9896)),
    City(294999, "Bnei Brak", "bnei-brak", State(294640, "Israel", "il"), Coordinates(32.081, 34.8337)),
    City(293918, "Petah Tikva", "petah-tikva", State(294640, "Israel", "il"), Coordinates(32.0868, 34.8867)),
    City(295629, "Ashdod", "ashdod", State(294640, "Israel", "il"), Coordinates(31.792, 34.6497)),
    City(293322, "Tiberias", "tiberias", State(294640, "Israel", "il"), Coordinates(32.796, 35.532)),
    City(295530, "Beersheba", "beersheba", State(294640, "Israel", "il"), Coordinates(31.2518, 34.7915)),
    City(5128581, "New York", "new-york", State(6252001, "United States", "us"), Coordinates(40.7128, -74.006)),
    City(5364855, "Lakewood", "lakewood", State(6252001, "United States", "us"), Coordinates(40.0959, -74.2171)),
    City(5127315, "Monsey", "monsey", State(6252001, "United States", "us"), Coordinates(41.1115, -74.0687)),
    City(4887398, "Chicago", "chicago", State(6252001, "United States", "us"), Coordinates(41.8781, -87.6298)),
    City(5368361, "Los Angeles", "los-angeles", State(6252001, "United States", "us"), Coordinates(34.0522, -118.2437)),
    City(4930956, "Boston", "boston", State(6252001, "United States", "us"), Coordinates(42.3601, -71.0589)),
    City(4505716, "Baltimore", "baltimore", State(6252001, "United States", "us"), Coordinates(39.2904, -76.6122)),
    City(2643743, "London", "london", State(2635167, "United Kingdom", "uk"), Coordinates(51.5074, -0.1278)),
    City(2643123, "Manchester", "manchester", State(2635167, "United Kingdom", "uk"), Coordinates(53.4808, -2.2426)),
    City(7535506, "Golders Green", "golders-green", State(2635167, "United Kingdom", "uk"), Coordinates(51.5724, -0.1955)),
    City(2988507, "Paris", "paris", State(3017382, "France", "fr"), Coordinates(48.8566, 2.3522)),
    City(2995469, "Marseille", "marseille", State(3017382, "France", "fr"), Coordinates(43.2965, 5.3698)),
    City(2973783, "Strasbourg", "strasbourg", State(3017382, "France", "fr"), Coordinates(48.5734, 7.7521)),
    City(2950159, "Berlin", "berlin", State(2921044, "Germany", "de"), Coordinates(52.52, 13.405)),
    City(6555231, "Frankfurt", "frankfurt", State(2921044, "Germany", "de"), Coordinates(50.1109, 8.6821)),
    City(6555232, "Munich", "munich", State(2921044, "Germany", "de"), Coordinates(48.1351, 11.582)),
    City(6167865, "Toronto", "toronto", State(6251999, "Canada", "ca"), Coordinates(43.6532, -79.3832)),
    City(6077243, "Montreal", "montreal", State(6251999, "Canada", "ca"), Coordinates(45.5017, -73.5673)),
    City(2147714, "Sydney", "sydney", State(2077456, "Australia", "au"), Coordinates(-33.8688, 151.2093)),
    City(2158177, "Melbourne", "melbourne", State(2077456, "Australia", "au"), Coordinates(-37.8136, 144.9631)),
    City(3369157, "Cape Town", "cape-town", State(953987, "South Africa", "za"), Coordinates(-33.9249, 18.4241)),
    City(993800, "Johannesburg", "johannesburg", State(953987, "South Africa", "za"), Coordinates(-26.2041, 28.0473)),
    City(2657895, "Zurich", "zurich", State(2658434, "Switzerland", "ch"), Coordinates(47.3769, 8.5417)),
    City(3435910, "Buenos Aires", "buenos-aires", State(3865483, "Argentina", "ar"), Coordinates(-34.6037, -58.3816)),
    City(3054643, "Budapest", "budapest", State(3057568, "Hungary", "hu"), Coordinates(47.4979, 19.0402)),
    City(3117735, "Barcelona", "barcelona", State(2510769, "Spain", "es"), Coordinates(41.3851, 2.1734)),
    City(3169070, "Rome", "rome", State(3175395, "Italy", "it"), Coordinates(41.9028, 12.4964))
  ]

  /** The registry the application ships with. */
  const Locations: Registry := Registry(States, Cities)

  // ---------------------------------------------------------------------
  // Invariants a registry may or may not satisfy
  // ---------------------------------------------------------------------

  predicate SlugChar(ch: char) {
    'a' <= ch <= 'z' || ch == '-'
  }

  /** A non-empty word of lower-case letters and hyphens. */
  predicate IsSlug(s: string) {
    |s| > 0 && forall k :: 0 <= k < |s| ==> SlugChar(s[k])
  }

  /** Every slug of the registry, state or city, is a well-formed slug. */
  ghost predicate SlugsWellFormed(reg: Registry) {
    && (forall j :: 0 <= j < |reg.states| ==> IsSlug(reg.states[j].slug))
    && (forall i :: 0 <= i < |reg.cities| ==> IsSlug(reg.cities[i].slug) && IsSlug(reg.cities[i].state.slug))
  }

  ghost predicate StateSlugsDistinct(reg: Registry) {
    forall i, j :: 0 <= i < j < |reg.states| ==> reg.states[i].slug != reg.states[j].slug
  }

  ghost predicate DistinctCitySlugs(cities: seq<City>) {
    forall i, j :: 0 <= i < j < |cities| ==> cities[i].slug != cities[j].slug
  }

  /** A city whose state slug names a listed state embeds exactly that state's record. */
  ghost predicate EmbeddedStatesAgree(reg: Registry) {
    forall i, j :: 0 <= i < |reg.cities| && 0 <= j < |reg.states| && reg.cities[i].state.slug == reg.states[j].slug ==>
      reg.cities[i].state == reg.states[j]
  }

  ghost predicate StateListed(reg: Registry, slug: string) {
    exists j :: 0 <= j < |reg.states| && reg.states[j].slug == slug
  }

  ghost predicate StateHasCity(reg: Registry, slug: string) {
    exists i :: 0 <= i < |reg.cities| && reg.cities[i].state.slug == slug
  }

  ghost predicate EveryStateHasCity(reg: Registry) {
    forall j :: 0 <= j < |reg.states| ==> StateHasCity(reg, reg.states[j].slug)
  }

  ghost predicate EveryCityStateListed(reg: Registry) {
    forall i :: 0 <= i < |reg.cities| ==> StateListed(reg, reg.cities[i].state.slug)
  }

  /** The cities of one state form one contiguous block of the list. */
  ghost predicate GroupedByState(cities: seq<City>) {
    forall i, j, k :: 0 <= i < j < k < |cities| && cities[i].state.slug == cities[k].state.slug ==>
      cities[j].state.slug == cities[i].state.slug
  }

  /**
   * `order` lists state slugs without repetition and `block[i]` says which of
   * them city `i` belongs to; block numbers never go down along the list.
   */
  ghost predicate BlockLayout(cities: seq<City>, order: seq<string>, block: seq<int>) {
    && |block| == |cities|
    && (forall i :: 0 <= i < |cities| ==> 0 <= block[i] < |order| && cities[i].state.slug == order[block[i]])
    && (forall i :: 0 < i < |block| ==> block[i - 1] <= block[i])
    && (forall a, b :: 0 <= a < b < |order| ==> order[a] != order[b])
  }

  // ---------------------------------------------------------------------
  // General facts
  // ---------------------------------------------------------------------

  /** A list that can be laid out in blocks of distinct states is grouped by state. */
  lemma BlocksGiveGrouping(cities: seq<City>, order: seq<string>, block: seq<int>)
    requires BlockLayout(cities, order, block)
    ensures GroupedByState(cities)
  {
    forall i, j, k | 0 <= i < j < k < |cities| && cities[i].state.slug == cities[k].state.slug
      ensures cities[j].state.slug == cities[i].state.slug
    {
      BlocksAscend(block, i, j);
      BlocksAscend(block, j, k);
      // the same slug sits at one place of `order` only
      assert block[i] == block[k];
    }
  }

  /** Non-decreasing between neighbours means non-decreasing between any two positions. */
  lemma {:induction false} BlocksAscend(block: seq<int>, i: int, j: int)
    requires forall m :: 0 < m < |block| ==> block[m - 1] <= block[m]
    requires 0 <= i <= j < |block|
    ensures block[i] <= block[j]
    decreases j - i
  {
    if i < j {
      BlocksAscend(block, i, j - 1);
    }
  }

  // ---------------------------------------------------------------------
  // Facts about the shipped registry
  // ---------------------------------------------------------------------

  lemma LocationsStateSlugsDistinct()
    ensures |Locations.states| == 12
    ensures StateSlugsDistinct(Locations)
  {
  }

  lemma LocationsCitySlugsDistinct()
    ensures |Locations.cities| == 35
    ensures DistinctCitySlugs(Locations.cities)
  {
    CitySlugsDistinctFrom0();
    CitySlugsDistinctFrom4();
    CitySlugsDistinctFrom8();
    CitySlugsDistinctFrom14();
    CitySlugsDistinctFrom22();
  }

  // The facts below are checked over short ranges of indices, one lemma per
  // range: a single lemma over all 35 cities costs the solver far more.

  lemma CitySlugsDistinctFrom0()
    ensures forall i, j :: 0 <= i < 4 && i < j < |Cities| ==> Cities[i].slug != Cities[j].slug
  {
  }

  lemma CitySlugsDistinctFrom4()
    ensures forall i, j :: 4 <= i < 8 && i < j < |Cities| ==> Cities[i].slug != Cities[j].slug
  {
  }

  lemma CitySlugsDistinctFrom8()
    ensures forall i, j :: 8 <= i < 14 && i < j < |Cities| ==> Cities[i].slug != Cities[j].slug
  {
  }

  lemma CitySlugsDistinctFrom14()
    ensures forall i, j :: 14 <= i < 22 && i < j < |Cities| ==> Cities[i].slug != Cities[j].slug
  {
  }

  lemma CitySlugsDistinctFrom22()
    ensures forall i, j :: 22 <= i < 35 && i < j < |Cities| ==> Cities[i].slug != Cities[j].slug
  {
  }

  lemma LocationsEmbeddedStatesAgree()
    ensures EmbeddedStatesAgree(Locations)
  {
    EmbeddedStatesAgreeFrom0();
    EmbeddedStatesAgreeFrom12();
    EmbeddedStatesAgreeFrom24();
  }

  lemma EmbeddedStatesAgreeFrom0()
    ensures forall i, j :: 0 <= i < 12 && 0 <= j < |States| && Cities[i].state.slug == States[j].slug ==>
      Cities[i].state == States[j]
  {
  }

  lemma EmbeddedStatesAgreeFrom12()
    ensures forall i, j :: 12 <= i < 24 && 0 <= j < |States| && Cities[i].state.slug == States[j].slug ==>
      Cities[i].state == States[j]
  {
  }

  lemma EmbeddedStatesAgreeFrom24()
    ensures forall i, j :: 24 <= i < 35 && 0 <= j < |States| && Cities[i].state.slug == States[j].slug ==>
      Cities[i].state == States[j]
  {
  }

  lemma LocationsSlugsWellFormed()
    ensures SlugsWellFormed(Locations)
  {
    StateSlugsWellFormed();
    CitySlugsWellFormedFrom0();
    CitySlugsWellFormedFrom7();
    CitySlugsWellFormedFrom14();
    CitySlugsWellFormedFrom21();
    CitySlugsWellFormedFrom28();
    EmbeddedSlugsWellFormed();
  }

  lemma StateSlugsWellFormed()
    ensures forall j :: 0 <= j < |States| ==> IsSlug(States[j].slug)
  {
    forall j | 0 <= j < |States| ensures IsSlug(States[j].slug) {
      var s := States[j].slug;
      forall k | 0 <= k < |s| ensures SlugChar(s[k]) {
      }
    }
  }

  lemma CitySlugsWellFormedFrom0()
    ensures forall i :: 0 <= i < 7 ==> IsSlug(Cities[i].slug)
  {
    forall i | 0 <= i < 7 ensures IsSlug(Cities[i].slug) {
      var s := Cities[i].slug;
      forall k | 0 <= k < |s| ensures SlugChar(s[k]) {
      }
    }
  }

  lemma CitySlugsWellFormedFrom7()
    ensures forall i :: 7 <= i < 14 ==> IsSlug(Cities[i].slug)
  {
    forall i | 7 <= i < 14 ensures IsSlug(Cities[i].slug) {
      var s := Cities[i].slug;
      forall k | 0 <= k < |s| ensures SlugChar(s[k]) {
      }
    }
  }

  lemma CitySlugsWellFormedFrom14()
    ensures forall i :: 14 <= i < 21 ==> IsSlug(Cities[i].slug)
  {
    forall i | 14 <= i < 21 ensures IsSlug(Cities[i].slug) {
      var s := Cities[i].slug;
      forall k | 0 <= k < |s| ensures SlugChar(s[k]) {
      }
    }
  }

  lemma CitySlugsWellFormedFrom21()
    ensures forall i :: 21 <= i < 28 ==> IsSlug(Cities[i].slug)
  {
    forall i | 21 <= i < 28 ensures IsSlug(Cities[i].slug) {
      var s := Cities[i].slug;
      forall k | 0 <= k < |s| ensures SlugChar(s[k]) {
      }
    }
  }

  lemma CitySlugsWellFormedFrom28()
    ensures forall i :: 28 <= i < 35 ==> IsSlug(Cities[i].slug)
  {
    forall i | 28 <= i < 35 ensures IsSlug(Cities[i].slug) {
      var s := Cities[i].slug;
      forall k | 0 <= k < |s| ensures SlugChar(s[k]) {
      }
    }
  }

  lemma EmbeddedSlugsWellFormed()
    ensures forall i :: 0 <= i < |Cities| ==> IsSlug(Cities[i].state.slug)
  {
    forall i | 0 <= i < |Cities| ensures IsSlug(Cities[i].state.slug) {
      var s := Cities[i].state.slug;
      forall k | 0 <= k < |s| ensures SlugChar(s[k]) {
      }
    }
  }

  lemma LocationsEveryStateHasCity()
    ensures EveryStateHasCity(Locations)
  {
    // index of the first city declared for each state, in the order of `States`
    var firsts := [0, 8, 15, 24, 26, 28, 18, 21, 31, 32, 33, 34];
    forall j | 0 <= j < |States| ensures StateHasCity(Locations, States[j].slug) {
      assert Cities[firsts[j]].state.slug == States[j].slug;
    }
  }

  /**
   * The registry does not satisfy "every city's state is listed": Zurich's
   * state "ch" is missing from `States`, and Zurich is the only such city.
   */
  lemma LocationsOnlyZurichStateUnlisted()
    ensures Cities[30].slug == "zurich" && Cities[30].state.slug == "ch"
    ensures !StateListed(Locations, "ch")
    ensures !EveryCityStateListed(Locations)
    ensures forall i :: 0 <= i < |Cities| && i != 30 ==> StateListed(Locations, Cities[i].state.slug)
  {
    // index in `States` of each city's state; Zurich's (-1) has none
    var stateOf := [0, 0, 0, 0, 0, 0, 0, 0, 1, 1, 1, 1, 1, 1, 1, 2, 2, 2, 6, 6, 6, 7, 7, 7, 3, 3, 4, 4, 5, 5, -1, 8, 9, 10, 11];
    forall i | 0 <= i < |Cities| && i != 30 ensures StateListed(Locations, Cities[i].state.slug) {
      if i < 15 {
        assert 0 <= stateOf[i] < |States| && States[stateOf[i]].slug == Cities[i].state.slug;
      } else {
        assert 0 <= stateOf[i] < |States| && States[stateOf[i]].slug == Cities[i].state.slug;
      }
    }
  }

  /** The state slugs in the order their blocks appear; "ch" (Zurich's) is not in `States`. */
  ghost const BlockOrder: seq<string> := ["il", "us", "uk", "fr", "de", "ca", "au", "za", "ch", "ar", "hu", "es", "it"]

  /** The block, that is the position in `BlockOrder`, of each city of `Cities`. */
  ghost const CityBlock: seq<int> :=
    [0, 0, 0, 0, 0, 0, 0, 0, 1, 1, 1, 1, 1, 1, 1, 2, 2, 2, 3, 3, 3, 4, 4, 4, 5, 5, 6, 6, 7, 7, 8, 9, 10, 11, 12]

  lemma LocationsGroupedByState()
    ensures GroupedByState(Locations.cities)
  {
    BlockOrderDistinct();
    CityBlockAscends();
    forall i | 0 <= i < |Cities| ensures 0 <= CityBlock[i] < |BlockOrder| && Cities[i].state.slug == BlockOrder[CityBlock[i]] {
      if i < 12 {
        CityBlocksFrom0();
      } else if i < 24 {
        CityBlocksFrom12();
      } else {
        CityBlocksFrom24();
      }
    }
    BlocksGiveGrouping(Cities, BlockOrder, CityBlock);
  }

  lemma BlockOrderDistinct()
    ensures forall a, b :: 0 <= a < b < |BlockOrder| ==> BlockOrder[a] != BlockOrder[b]
  {
  }

  lemma CityBlockAscends()
    ensures |CityBlock| == |Cities|
    ensures forall i :: 0 < i < |CityBlock| ==> CityBlock[i - 1] <= CityBlock[i]
  {
  }

  lemma CityBlocksFrom0()
    ensures forall i :: 0 <= i < 12 ==> 0 <= CityBlock[i] < |BlockOrder| && Cities[i].state.slug == BlockOrder[CityBlock[i]]
  {
  }

  lemma CityBlocksFrom12()
    ensures forall i :: 12 <= i < 24 ==> 0 <= CityBlock[i] < |BlockOrder| && Cities[i].state.slug == BlockOrder[CityBlock[i]]
  {
  }

  lemma CityBlocksFrom24()
    ensures forall i :: 24 <= i < 35 ==> 0 <= CityBlock[i] < |BlockOrder| && Cities[i].state.slug == BlockOrder[CityBlock[i]]
  {
  }

  /** ("il", "jerusalem") names exactly one city, the first one declared. */
  lemma LocationsJerusalem()
    ensures forall i :: 0 <= i < |Cities| ==>
      (Cities[i].state.slug == "il" && Cities[i].slug == "jerusalem" <==> i == 0)
    ensures Cities[0].coordinates == Coordinates(31.7683, 35.2137)
  {
  }
}

=== FILE: weather_path.dfy ===
/**
 * Paths of the weather page. The selector builds `/weather/{state}/{city}`
 * with a template string; the page is mounted on the dynamic route
 * `/weather/[state]/[city]`, which splits such a path back into its two
 * segments. `Parse` is that split, the partner against which `Build` is proved.
 */
module WeatherPath {
  import opened Wrappers

  /** The two dynamic segments of the weather route. */
  datatype Route = Route(state: string, city: string)

  const Prefix: string := "/weather/"

  /** The template `/weather/${state}/${city}`. */
  function Build(state: string, city: string): (r: string)
    ensures |r| == |Prefix| + |state| + 1 + |city|
    ensures Prefix <= r && r[|Prefix| + |state|] == '/'
  {
    Prefix + state + "/" + city
  }

  /** A value the route can bind to one segment: non-empty and free of '/'. */
  predicate IsSegment(s: string) {
    |s| > 0 && '/' !in s
  }

  /** Position of the first '/' in `s`, if there is one. */
  function FirstSlash(s: string): (r: Option<nat>)
    ensures r.None? <==> '/' !in s
    ensures r.Some? ==> r.value < |s| && s[r.value] == '/' && '/' !in s[..r.value]
  {
    if s == [] then None
    else if s[0] == '/' then Some(0)
    else
      match FirstSlash(s[1..])
      case None => None
      case Some(n) =>
        assert s[..n + 1] == [s[0]] + s[1..][..n];
        Some(n + 1)
  }

  /** Matches `path` against `/weather/[state]/[city]`; `None` when it does not match. */
  function Parse(path: string): (r: Option<Route>)
    ensures r.Some? ==> IsSegment(r.value.state) && IsSegment(r.value.city)
    ensures r.Some? ==> Build(r.value.state, r.value.city) == path
  {
    if |path| < |Prefix| || path[..|Prefix|] != Prefix then None
    else
      var rest := path[|Prefix|..];
      match FirstSlash(rest)
      case None => None
      case Some(n) =>
        var state, city := rest[..n], rest[n + 1..];
        if state == [] || !IsSegment(city) then None
        else
          assert rest == state + "/" + city;
          assert path == Prefix + rest;
          Some(Route(state, city))
  }

  /** A path built from two segments is matched back to exactly those segments. */
  lemma ParseBuild(state: string, city: string)
    requires IsSegment(state) && IsSegment(city)
    ensures Parse(Build(state, city)) == Some(Route(state, city))
  {
    var path := Build(state, city);
    assert path[..|Prefix|] == Prefix;
    var rest := path[|Prefix|..];
    assert rest == state + "/" + city;
    assert rest[..|state|] == state;
    assert rest[|state|] == '/';
    FirstSlashIs(rest, |state|);
    assert rest[|state| + 1..] == city;
  }

  lemma FirstSlashIs(s: string, n: nat)
    requires n < |s| && s[n] == '/' && '/' !in s[..n]
    ensures FirstSlash(s) == Some(n)
  {
    // the first '/' can lie neither before n (s[..n] has none) nor after it (s[n] is one)
  }

  /** Different segment pairs give different paths. */
  lemma BuildInjective(state1: string, city1: string, state2: string, city2: string)
    requires IsSegment(state1) && IsSegment(city1) && IsSegment(state2) && IsSegment(city2)
    requires Build(state1, city1) == Build(state2, city2)
    ensures state1 == state2 && city1 == city2
  {
    ParseBuild(state1, city1);
    ParseBuild(state2, city2);
  }
}

=== FILE: wrappers.dfy ===
/** The optional value used where the source yields `undefined` or does nothing. */
module Wrappers {

  datatype Option<+T> = None | Some(value: T)
}
